=== FILE: README.md ===
# Yoosee intercom: a Dafny model

This project models the core of the Yoosee camera intercom client
(`intercom.py`). The client transcodes an audio file to 16-bit mono PCM,
slices it into 320-byte chunks and fans every chunk out to the audio queue
of every camera. Each camera has its own client. The client opens the
camera's audio back-channel with a text command and waits for the camera's
acceptance. It then writes the queued chunks as little-endian RTP-over-RTSP
interleaved frames, paced by a "burst and maintain" loop: one second of
audio at once, then no more than two seconds plus one chunk ahead of the
wall clock.

The modules follow the program's structure:

- `Bytes`: bytes, zero padding, and the `struct` 16-bit field in either byte order.
- `Frame`: the 16-byte frame header written in front of each chunk, plus a
  reference receiver used to state round trips.
- `Control`: the OPEN and CLOSE commands and the `"CSeq: 8"` acceptance test.
- `Session`: one `CameraClient` as an immutable record:
  - `connect`, `_listen`, `enqueue` and `stop` as pure transitions;
  - sockets reduced to a present/absent flag and write outcomes.
- `Pacer`: one iteration of `_process_queue_loop` as a pure step.
  - The current time in milliseconds is a parameter.
  - So is the outcome of each socket write it attempts (`ok: nat -> bool`,
    indexed by write attempt).
  - `Run` chains iterations with no `enqueue` in between.
- `Fanout`: `start_centralized_streaming` once the transcoder's bytes are
  known. It slices and pads the chunks and enqueues each one into every client.
- `Addresses`: the camera list that `main` builds from `--ip`.

The model follows these details of `intercom.py`:

- The OPEN command addresses `/onvif0`; the CLOSE command addresses `/onvif1`.
- A short final chunk is zero-padded to 320 bytes, not dropped.
- The unconnected queue bound of 50000 chunks is 1000 seconds of 8 kHz audio.
  The comment beside the constant (intercom.py:16) says about 50 minutes.
- The burst is `int(rate * 2 / 320)` chunks, one second of audio (50 chunks at 8 kHz).
- The iteration that sends the burst does not end there. Since there is no
  `continue`, the throttle test and one more send follow at once, so a cold
  start pops `BurstCount + 1` chunks.

## Model

| member | source | states |
|---|---|---|
| `Bytes.PackU16` | intercom.py:146 | The `H` field packed in a byte order is read back as the same value in that order. |
| `Bytes.Zeros` | intercom.py:147 | `b'\x00' * n` is `n` bytes, all zero. |
| `Frame.Header` | intercom.py:146 | `struct.pack('<BBH', 0x24, 0x02, 332)` is the four bytes `24 02 4C 01`. |
| `Frame.EncodeFrame` | intercom.py:145-150 | A frame is 16 bytes longer than its chunk: marker 0x24, channel 2, length field 332 read little-endian, twelve zero bytes, then the chunk unchanged. The length field equals 12 + chunk length exactly when the chunk is a full 320 bytes. |
| `Frame.DecodeEncodeFrame` | intercom.py:145-150 | A receiver that reads the length little-endian gets the whole chunk back on channel 2, and the stream resumes right after the frame. |
| `Frame.StandardReaderMisframes` | intercom.py:146 | A receiver that reads the length big-endian, as section 10.12 of RFC 2326 does, sees 19457 and never recovers the chunk: whatever it decodes has a different payload. |
| `Frame.EncodeAll` | intercom.py:142-151 | Frames written back to back are 16 bytes per chunk plus the chunk bytes that `total_bytes_sent` counts. |
| `Frame.DecodeAllEncodeAll` | intercom.py:142-151 | Any sequence of full chunks written as frames is recovered in order from the byte stream. |
| `Control.OpenCommand` | intercom.py:52-57 | The exact OPEN text: `/onvif0`, `CSeq: 8`, the literal `strlen(Content-type)` length line, `AudioCtlCmd:OPEN` and a blank line. |
| `Control.CloseCommand` | intercom.py:162-167 | The exact CLOSE text: `/onvif1`, `CSeq: 10`, `AudioCtlCmd:CLOSE`. |
| `Control.CommandsRoundTrip` | intercom.py:52-57 | The camera address is recovered from both commands. The two commands are told apart by their tails: neither parses as the other. |
| `Control.Contains` | intercom.py:80 | Python's substring `in`: true exactly when the pattern occurs at some index. |
| `Control.IsHandshakeAccepted` | intercom.py:80 | A read counts as acceptance exactly when `CSeq: 8` occurs somewhere in it. |
| `Control.MarkerAnywhereAccepts` | intercom.py:80 | The marker anywhere in a read is acceptance, and so is a reply carrying `CSeq: 80`. |
| `Control.NoEightNoAcceptance` | intercom.py:80 | A read with no `8` in it is never acceptance; a `CSeq: 10` reply is not acceptance. |
| `Control.OpenCommandCarriesMarker` | intercom.py:54 | The OPEN command itself contains the acceptance marker. |
| `Session.NewClient` | intercom.py:20-30 | A new client is running, has no socket, is neither listening nor connected, has an empty queue, an unset start time and nothing counted. |
| `Session.Enqueue` | intercom.py:89-96 | The chunk is always appended. Once accepted, nothing is dropped. Before acceptance, the oldest entry is dropped exactly when the queue would exceed 50000, so the queue never exceeds the bound. Nothing but the queue changes. |
| `Session.EnqueueAll` | intercom.py:89-96 | A run of enqueues changes nothing but the queue. |
| `Session.EnqueueAllSuffix` | intercom.py:89-96 | Whatever the connection state, the queue ends as a suffix of the old queue followed by the new chunks: only the oldest entries are ever dropped. |
| `Session.EnqueueAllConnected` | intercom.py:89-96 | After acceptance, any run of enqueues appends every chunk in order. |
| `Session.EnqueueAllKeepsNewest` | intercom.py:89-96 | Before acceptance, a queue within its bound ends up holding exactly the newest 50000 of everything enqueued. |
| `Session.Stop` | intercom.py:155-175 | Afterwards the client is not running. A running client drops its socket and connection flag, and writes CLOSE exactly when it had a socket. Queue, byte count, start time and the listening flag are kept. A stopped client is left unchanged. |
| `Session.StopIdempotent` | intercom.py:156 | A second `stop` writes nothing and changes nothing. |
| `Session.Connect` | intercom.py:43-67 | `sent` lists every write attempted, in order. Whatever the outcome, queue, start time and byte count are kept; on failure the listening flag is kept too. On success, OPEN is written, the socket is set and the listener starts. If connecting raises, `stop` runs and only CLOSE is attempted. If the OPEN write (or starting the listener) raises, OPEN and then CLOSE are attempted. On any failure the client ends not running, with no socket and not connected. When no socket could be created, CLOSE is written only if the client already had a socket; for a client with no socket yet, as after the constructor, nothing is written. |
| `Session.Listen` | intercom.py:69-87 | Only a running, listening client with a socket reads. A reply with the marker sets the connection flag and any other reply leaves it. EOF stops listening but keeps the flag. A raised error stops listening and clears the flag. |
| `Session.HandshakeReachesConnected` | intercom.py:80-82 | A fresh client that connects and then reads a reply becomes connected exactly when the reply carries the marker. |
| `Pacer.BurstCount` | intercom.py:113 | The burst is the number of whole 320-byte chunks in one second of audio. |
| `Pacer.ThrottledMatchesSource` | intercom.py:126-131 | The integer throttle test holds exactly when the source's test holds over the reals: bytes sent divided by the byte rate, times 1000, exceeds the elapsed milliseconds plus 2000. |
| `Pacer.SendFrame` | intercom.py:142-153 | Without a socket the chunk is lost. A successful write counts the chunk's length. A failed write counts nothing. |
| `Pacer.SendHead` | intercom.py:136-137 | Pops exactly the head chunk, and delivers it only if its write succeeds. |
| `Pacer.Burst` | intercom.py:116-118 | Pops exactly `n` chunks from the front, in order. The byte count grows by the bytes of the chunks whose writes succeeded. |
| `Pacer.Maintain` | intercom.py:125-137 | Throttled: nothing changes and the loop sleeps 10 ms. Otherwise at most the head chunk is popped and the loop goes round again. |
| `Pacer.ColdStart` | intercom.py:112-137 | `startTime` becomes the current time. The iteration pops the burst plus one more chunk when it goes round again, and exactly the burst when it sleeps. |
| `Pacer.Step` | intercom.py:101-137 | Chunks leave only from the front. The byte count grows by exactly the delivered bytes. Only queue, start time and byte count can change. A waiting iteration changes nothing. |
| `Pacer.StepWaitOutcome` | intercom.py:102-134 | The exit and sleep times of each waiting case: not running, no connection or socket, empty queue, still buffering, throttled. |
| `Pacer.StepColdStart` | intercom.py:112-119 | From a cold start with more than a burst queued, the burst leaves plus at most one more chunk, and `startTime` becomes now. |
| `Pacer.StepSingleSend` | intercom.py:131-137 | In steady state, when not throttled, exactly the head chunk leaves and is counted only if its write succeeded. |
| `Pacer.BurstFromNothing` | intercom.py:112-131 | Starting from nothing sent, the burst is at most one second of audio, and the throttle does not hold right after it. |
| `Pacer.ColdStartSendsOneMore` | intercom.py:112-137 | Starting from nothing sent, the first streaming iteration always pops `BurstCount + 1` chunks. |
| `Pacer.ColdStartAt8kHz` | intercom.py:113-123 | At 8 kHz the burst is 50 chunks. Up to 50 queued chunks wait (100 ms sleep); with more, the first 51 go out in queue order. |
| `Pacer.FirstSendAllOk` | intercom.py:112-137 | With every write succeeding, the first streaming iteration sends exactly the first `BurstCount + 1` queued chunks. |
| `Pacer.DeliveredBytesBound` | intercom.py:149-151 | Chunks of at most 320 bytes add at most 320 bytes each to the byte count, whatever the write outcomes. |
| `Pacer.StepKeepsLeadBounded` | intercom.py:125-137 | Lag bound: once the burst is out, audio written (in ms) never exceeds the time since the burst + 2000 ms + one chunk. Before the burst nothing is written. One iteration keeps this. |
| `Pacer.NewClientLeadBounded` | intercom.py:20-30 | A freshly constructed client meets the lag bound at any time, with an empty queue. |
| `Pacer.EnqueueKeepsLeadBounded` | intercom.py:89-96 | `enqueue` of a chunk of at most 320 bytes keeps the lag bound and the chunk-size bound, so together with `Pacer.StepKeepsLeadBounded` the bound carries from construction through enqueues and iterations. |
| `Pacer.ConnectKeepsLeadBounded` | intercom.py:43-67 | `connect`, whatever its outcome, keeps the lag bound and the chunk-size bound. |
| `Pacer.QueueBoundAt8kHz` | intercom.py:16-17 | The unconnected queue bound of 50000 chunks of 320 bytes is 1000 seconds of 8 kHz audio, under 17 minutes. |
| `Pacer.Run` | intercom.py:101-102 | A run of loop iterations changes nothing but the queue, the start time and the byte count. |
| `Pacer.RunAccounting` | intercom.py:101-151 | Over any run, chunks leave the queue only from its front, and the byte count grows by exactly the size of the chunks written. |
| `Pacer.RunKeepsLeadBounded` | intercom.py:101-137 | The lag bound holds after every run of iterations with non-decreasing clock readings. |
| `Pacer.RunDeliversInOrder` | intercom.py:101-151 | Over any run whose writes all succeed, the camera receives exactly the chunks that left the queue, in queue order. |
| `Fanout.Chunks` | intercom.py:200-207 | Every chunk is 320 bytes, and there are ceil(len/320) of them. Laid end to end, they are the input followed by fewer than 320 zero bytes. |
| `Fanout.WholeChunksUnpadded` | intercom.py:205-207 | Input whose length is a multiple of 320 is sliced exactly, with no padding. |
| `Fanout.EnqueueEach` | intercom.py:209-210 | One client comes out per client in, in the same order. `Fanout.EnqueueEachPointwise` states each one's contents. |
| `Fanout.EnqueueEachPointwise` | intercom.py:209-210 | Each client's result is that client's own `enqueue` of the chunk. |
| `Fanout.Distribute` | intercom.py:200-210 | The same clients come out, in the same order, and only their queues change. |
| `Fanout.DistributePerClient` | intercom.py:200-210 | Feeding the clients chunk by chunk gives each client the same result as enqueueing all the chunks into it alone. |
| `Fanout.StreamAll` | intercom.py:200-210 | Each client ends up as if the whole padded chunk sequence were enqueued into it alone. |
| `Fanout.StreamReachesEveryClient` | intercom.py:200-210 | Every client that has accepted, or whose queue has room, gets exactly the padded chunks appended, whatever the other clients' state. |
| `Fanout.TwoClientsTwoChunks` | intercom.py:200-210 | With two clients and 640 bytes, each queue receives the two halves of the stream. |
| `Addresses.Split` | intercom.py:231 | `split(',')`: at least one part, no part holds a comma, and joining with commas gives the input back. |
| `Addresses.SplitJoin` | intercom.py:231 | Splitting undoes joining whenever no part holds a comma. |
| `Addresses.Strip` | intercom.py:232 | The result is the input with its leading and trailing whitespace cut off. It is empty exactly when the input is all whitespace; otherwise it starts and ends with non-whitespace. |
| `Addresses.Cleaned` | intercom.py:232 | The comprehension keeps exactly the stripped forms of the non-blank parts, each trimmed. |
| `Addresses.Dedup` | intercom.py:233 | No duplicates, and exactly the same members as the input. |
| `Addresses.Normalize` | intercom.py:231-233 | The camera list has no duplicates and no empty or blank entries; each entry is stripped. An address is listed exactly when it is the stripped form of some non-blank comma-separated part. |

## Left out

- Sockets, threads, `time.sleep`, socket timeouts, printing and the debug
  log are not modelled.
  - Socket writes become outcome parameters.
  - Sleeps become the `Sleep(ms)` outcome of an iteration.
- Concurrency is not modelled. In the source, the pacer thread, the listener
  thread and the fan-out loop interleave. The model composes their
  transitions sequentially, and `Run` has no `enqueue` between iterations.
- The ffmpeg subprocess, its command line and its start-up error check
  (intercom.py:180-198) are external processes. The transcoder's output is
  the `data` parameter of `Fanout.StreamAll`.
- `parse_args`, the printed banner, client construction and the final
  wait/auto-exit/Ctrl+C loop of `main` (intercom.py:215-276) are left out.
  Only the address normalisation is modelled. The exits call `stop`, which
  is modelled.
- Commands are recorded as text, before `.encode()`. `sendall(open_cmd.encode())`
  (intercom.py:58) and `sendall(close_cmd.encode())` (intercom.py:168) write
  the UTF-8 bytes of that text; the model does not compute that encoding.
- UTF-8 decoding with `errors='ignore'` (intercom.py:76) is left out.
  `Session.Listen` receives the already decoded text of one `recv`; a reply
  split across reads is not modelled.
- Python floats are replaced by exact integers.
  - The throttle compares `total_bytes_sent / bytes_per_second * 1000`
    with the elapsed milliseconds plus 2000 (SPEED_MULTIPLIER is 1.0).
    `Pacer.Throttled` multiplies both sides out by the byte rate, with no
    rounding.
  - `time.time() * 1000` is an integer number of milliseconds.
  - One clock reading serves the whole iteration. The source reads the
    clock again between setting `start_time` and the throttle test.
- `Pacer.BurstCount`: `Pacer.Step` and everything built on it require a
  positive sample rate. A zero rate makes the source divide by zero at
  intercom.py:129, and negative rates are not modelled.
- `Pacer.StepKeepsLeadBounded`: requires the clock reading to be non-zero,
  because 0 is the source's "burst not sent yet" sentinel for `start_time`.
- `Pacer.Step`: the "waiting changes nothing" clause states one direction
  only. The converse does not hold for every state: below 160 Hz the burst
  count is 0. A client whose start time is unset but whose byte count is
  not zero can then be throttled at once, moving nothing without counting
  as waiting.
- `Session.Connect`: requires a running client, because `connect` is only
  called from the constructor, right after `running` is set.
- `Addresses.Dedup`: `list(set(ips))` yields an arbitrary order.
  `Addresses.Dedup` keeps first occurrences, and its contract states only
  what holds for any order: the same members, and no duplicates.
- The `port`, `sample_rate` and `debug` fields are not part of `Session.Client`.
  - The port only reaches the socket.
  - The sample rate is the `rate` parameter of the pacer.
- `Frame.DecodeFrame` and `Frame.DecodeAll` are not in the source. They are
  reference receivers that state what the camera can recover from the bytes
  written.

=== FILE: addresses.dfy ===
/** The camera list of `main`: `--ip` is split on commas, each part is
    stripped of surrounding whitespace, empty parts are dropped and
    duplicates removed. */
module Addresses {

  /** The characters Python's `str.isspace` accepts, which `str.strip()`
      removes from both ends. */
  const WHITESPACE: set<char> := {
    '\t', '\n', '\U{0B}', '\U{0C}', '\r', '\U{1C}', '\U{1D}', '\U{1E}', '\U{1F}', ' ',
    '\U{85}', '\U{A0}', '\U{1680}',
    '\U{2000}', '\U{2001}', '\U{2002}', '\U{2003}', '\U{2004}', '\U{2005}',
    '\U{2006}', '\U{2007}', '\U{2008}', '\U{2009}', '\U{200A}',
    '\U{2028}', '\U{2029}', '\U{202F}', '\U{205F}', '\U{3000}'
  }

  predicate IsSpace(ch: char)
  {
    ch in WHITESPACE
  }

  predicate AllSpace(s: string)
  {
    forall k :: 0 <= k < |s| ==> IsSpace(s[k])
  }

  /** `s.split(',')`: the text between commas, an empty string between two
      adjacent commas, and a single part when there is no comma. */
  function Split(s: string): (parts: seq<string>)
    ensures |parts| >= 1
    ensures forall i :: 0 <= i < |parts| ==> ',' !in parts[i]
    ensures Join(parts) == s
    decreases |s|
  {
    if s == [] then [""]
    else
      var rest := Split(s[1..]);
      if s[0] == ',' then
        assert Join([""] + rest) == "" + "," + Join(rest);
        [""] + rest
      else
        var parts := [[s[0]] + rest[0]] + rest[1..];
        assert parts[1..] == rest[1..];
        assert s == [s[0]] + s[1..];
        parts
  }

  /** `','.join(parts)`. */
  function Join(parts: seq<string>): string
    requires |parts| >= 1
    decreases |parts|
  {
    if |parts| == 1 then parts[0] else parts[0] + "," + Join(parts[1..])
  }

  /** Splitting undoes joining whenever no part holds a comma. */
  lemma {:induction false} SplitJoin(parts: seq<string>)
    requires |parts| >= 1
    requires forall i :: 0 <= i < |parts| ==> ',' !in parts[i]
    ensures Split(Join(parts)) == parts
    decreases |parts|, |parts[0]|
  {
    if |parts[0]| > 0 {
      var p0 := parts[0];
      var shorter := [p0[1..]] + parts[1..];
      assert forall i :: 0 <= i < |shorter| ==> ',' !in shorter[i] by {
        forall i | 0 <= i < |shorter| ensures ',' !in shorter[i] {
          if i == 0 {
            assert forall ch :: ch in p0[1..] ==> ch in p0;
          } else {
            assert shorter[i] == parts[i];
          }
        }
      }
      SplitJoin(shorter);
      var j := Join(parts);
      assert p0[0] != ',';
      if |parts| == 1 {
        assert j == p0;
        assert j[1..] == Join(shorter);
      } else {
        assert j == p0 + "," + Join(parts[1..]);
        assert shorter[1..] == parts[1..];
        assert j[1..] == Join(shorter);
      }
      assert j[0] == p0[0];
      assert [p0[0]] + p0[1..] == p0;
    } else if |parts| > 1 {
      SplitJoin(parts[1..]);
      var j := Join(parts);
      assert j == "," + Join(parts[1..]);
      assert j[1..] == Join(parts[1..]);
    }
  }

  /** Number of leading whitespace characters. */
  function LeadingSpaces(s: string): (n: nat)
    ensures n <= |s| && AllSpace(s[..n])
    ensures n < |s| ==> !IsSpace(s[n])
    decreases |s|
  {
    if s != [] && IsSpace(s[0]) then
      var n := 1 + LeadingSpaces(s[1..]);
      assert s[..n] == [s[0]] + s[1..][..n - 1];
      n
    else 0
  }

  /** Number of trailing whitespace characters. */
  function TrailingSpaces(s: string): (n: nat)
    ensures n <= |s| && AllSpace(s[|s| - n..])
    ensures n < |s| ==> !IsSpace(s[|s| - n - 1])
    decreases |s|
  {
    if s != [] && IsSpace(s[|s| - 1]) then
      var m := TrailingSpaces(s[..|s| - 1]);
      TrailingSpacesExtend(s, m);
      1 + m
    else 0
  }

  /** One more trailing space extends the all-space suffix by one. */
  lemma TrailingSpacesExtend(s: string, m: nat)
    requires s != [] && IsSpace(s[|s| - 1])
    requires m <= |s| - 1 && AllSpace(s[..|s| - 1][|s| - 1 - m..])
    requires m < |s| - 1 ==> !IsSpace(s[..|s| - 1][|s| - 1 - m - 1])
    ensures AllSpace(s[|s| - (1 + m)..])
    ensures 1 + m < |s| ==> !IsSpace(s[|s| - (1 + m) - 1])
  {
    var init := s[..|s| - 1];
    assert s[|s| - (1 + m)..] == init[|init| - m..] + [s[|s| - 1]];
    AllSpaceAppend(init[|init| - m..], [s[|s| - 1]]);
    if m < |init| {
      assert s[|s| - (1 + m) - 1] == init[|init| - m - 1];
    }
  }

  lemma AllSpaceAppend(a: string, b: string)
    requires AllSpace(a) && AllSpace(b)
    ensures AllSpace(a + b)
  {
    forall k | 0 <= k < |a + b| ensures IsSpace((a + b)[k]) {
      if k >= |a| {
        assert (a + b)[k] == b[k - |a|];
      }
    }
  }

  /** A non-empty string with no whitespace at either end. */
  predicate Trimmed(s: string)
  {
    s != [] && !IsSpace(s[0]) && !IsSpace(s[|s| - 1])
  }

  /** `s.strip()`: `s` without its leading and trailing whitespace. */
  function Strip(s: string): (r: string)
    ensures LeadingSpaces(s) + |r| <= |s|
    ensures r == s[LeadingSpaces(s) .. LeadingSpaces(s) + |r|]
    ensures AllSpace(s[LeadingSpaces(s) + |r|..])
    ensures r == [] <==> AllSpace(s)
    ensures r != [] ==> Trimmed(r)
  {
    var i := LeadingSpaces(s);
    if i == |s| then
      assert s[..i] == s;
      []
    else
      var t := TrailingSpaces(s[i..]);
      assert s[i..][|s[i..]| - t..] == s[|s| - t..];
      assert t < |s| - i by {
        assert !IsSpace(s[i..][0]);
      }
      var r := s[i..|s| - t];
      assert !IsSpace(r[|r| - 1]) by {
        assert r[|r| - 1] == s[i..][|s[i..]| - t - 1];
      }
      assert !AllSpace(s) by {
        assert !IsSpace(s[i]);
      }
      r
  }

  /** The list comprehension `[ip.strip() for ip in parts if ip.strip()]`. */
  function Cleaned(parts: seq<string>): (r: seq<string>)
    ensures forall x :: x in r ==> Trimmed(x)
    ensures forall x :: x in r <==> FromSomePart(parts, x)
    decreases |parts|
  {
    if parts == [] then []
    else
      var rest := Cleaned(parts[1..]);
      var head := Strip(parts[0]);
      var r := if head != [] then [head] + rest else rest;
      assert forall x :: x in r <==> FromSomePart(parts, x) by {
        forall x ensures x in r <==> FromSomePart(parts, x) {
          FromSomePartCons(parts, x);
        }
      }
      r
  }

  /** The parts' non-blank stripped forms are the first one's and the rest's. */
  lemma FromSomePartCons(parts: seq<string>, x: string)
    requires parts != []
    ensures FromSomePart(parts, x) <==> (Strip(parts[0]) != [] && x == Strip(parts[0])) || FromSomePart(parts[1..], x)
  {
    if FromSomePart(parts, x) {
      var k :| 0 <= k < |parts| && Strip(parts[k]) != [] && x == Strip(parts[k]);
      if k > 0 {
        assert parts[1..][k - 1] == parts[k];
      }
    }
    if FromSomePart(parts[1..], x) {
      var k :| 0 <= k < |parts[1..]| && Strip(parts[1..][k]) != [] && x == Strip(parts[1..][k]);
      assert parts[k + 1] == parts[1..][k];
    }
  }

  predicate NoDuplicates<T(==)>(xs: seq<T>)
  {
    forall i, j :: 0 <= i < j < |xs| ==> xs[i] != xs[j]
  }

  /** Drops repeated entries, keeping first occurrences. */
  function Dedup(xs: seq<string>): (r: seq<string>)
    ensures NoDuplicates(r)
    ensures forall x :: x in r <==> x in xs
    decreases |xs|
  {
    if xs == [] then []
    else
      var init := xs[..|xs| - 1];
      var last := xs[|xs| - 1];
      var d := Dedup(init);
      assert xs == init + [last];
      if last in d then d else d + [last]
  }

  /** `ip` is the stripped form of some non-blank part. */
  predicate FromSomePart(parts: seq<string>, ip: string)
  {
    exists k :: 0 <= k < |parts| && Strip(parts[k]) != [] && ip == Strip(parts[k])
  }

  /** Cleaning and deduplicating a list of parts. */
  function CleanParts(parts: seq<string>): (ips: seq<string>)
    ensures NoDuplicates(ips)
    ensures forall i :: 0 <= i < |ips| ==> Trimmed(ips[i]) && !AllSpace(ips[i])
    ensures forall ip :: ip in ips <==> FromSomePart(parts, ip)
  {
    var cleaned := Cleaned(parts);
    var r := Dedup(cleaned);
    forall i | 0 <= i < |r| ensures Trimmed(r[i]) && !AllSpace(r[i]) {
      assert r[i] in cleaned;
      assert !IsSpace(r[i][0]);
    }
    r
  }

  /** The address list `main` builds from `--ip`: no duplicates, no empty or
      blank entries, each entry stripped, and exactly the non-blank
      comma-separated parts after stripping. */
  function Normalize(arg: string): (ips: seq<string>)
    ensures NoDuplicates(ips)
    ensures forall i :: 0 <= i < |ips| ==> Trimmed(ips[i]) && !AllSpace(ips[i])
    ensures forall ip :: ip in ips <==> FromSomePart(Split(arg), ip)
  {
    CleanParts(Split(arg))
  }
}

=== FILE: bytes.dfy ===
/** Bytes and the two-byte integer layouts used on the camera wire. */
module Bytes {

  /** One octet, as packed by Python's `struct` module. */
  newtype byte = b: int | 0 <= b < 256

  /** Byte order of a packed 16-bit field. */
  datatype ByteOrder = LittleEndian | BigEndian

  /** `n` zero bytes, as `b'\x00' * n` builds them. */
  function Zeros(n: nat): (r: seq<byte>)
    ensures |r| == n
    ensures forall i :: 0 <= i < n ==> r[i] == 0
  {
    seq(n, _ => 0)
  }

  /** Reads an unsigned 16-bit field stored in two bytes. */
  function ReadU16(b: seq<byte>, order: ByteOrder): nat
    requires |b| == 2
  {
    match order
    case LittleEndian => b[0] as nat + 256 * b[1] as nat
    case BigEndian => 256 * b[0] as nat + b[1] as nat
  }

  /** Packs an unsigned 16-bit value, as the `H` code of `struct.pack`
      does under the given byte order. */
  function PackU16(n: nat, order: ByteOrder): (r: seq<byte>)
    requires n < 0x1_0000
    ensures |r| == 2
    ensures ReadU16(r, order) == n
  {
    match order
    case LittleEndian => [(n % 256) as byte, (n / 256) as byte]
    case BigEndian => [(n / 256) as byte, (n % 256) as byte]
  }
}

=== FILE: control.dfy ===
/** The text commands that open and close the camera's audio back-channel,
    and the test that recognises the camera's acceptance. */
module Control {
  import opened Wrappers

  const REQUEST_PREFIX: string := "USER_CMD_SET rtsp://"
  /** Everything the OPEN command carries after the camera address. */
  const OPEN_TAIL: string := CommandTail("onvif0", "8", "OPEN")
  /** Everything the CLOSE command carries after the camera address. */
  const CLOSE_TAIL: string := CommandTail("onvif1", "10", "CLOSE")
  /** The substring whose presence in a reply counts as acceptance. */
  const ACCEPT_MARKER: string := "CSeq: 8"

  /** The request line's path and the remaining header lines of a command;
      Content-length is the literal text `strlen(Content-type)`. */
  function CommandTail(path: string, cseq: string, verb: string): string
  {
    "/" + path + " RTSP/1.0\r\n"
    + "CSeq: " + cseq + "\r\n"
    + "Content-length: strlen(Content-type)\r\n"
    + "Content-type: AudioCtlCmd:" + verb + "\r\n\r\n"
  }

  /** The command `connect` sends once the socket is up. */
  function OpenCommand(ip: string): (r: string)
    ensures r == "USER_CMD_SET rtsp://" + ip + "/onvif0 RTSP/1.0\r\n" + "CSeq: 8\r\n"
                 + "Content-length: strlen(Content-type)\r\n" + "Content-type: AudioCtlCmd:OPEN\r\n\r\n"
  {
    REQUEST_PREFIX + ip + CommandTail("onvif0", "8", "OPEN")
  }

  /** The command `stop` sends before closing the socket. */
  function CloseCommand(ip: string): (r: string)
    ensures r == "USER_CMD_SET rtsp://" + ip + "/onvif1 RTSP/1.0\r\n" + "CSeq: 10\r\n"
                 + "Content-length: strlen(Content-type)\r\n" + "Content-type: AudioCtlCmd:CLOSE\r\n\r\n"
  {
    REQUEST_PREFIX + ip + CommandTail("onvif1", "10", "CLOSE")
  }

  /** Recovers the camera address from a command with the given tail. */
  function ParseTarget(text: string, tail: string): (r: Option<string>)
    ensures r.Some? ==> REQUEST_PREFIX + r.value + tail == text
  {
    if |text| >= |REQUEST_PREFIX| + |tail|
       && text[..|REQUEST_PREFIX|] == REQUEST_PREFIX
       && text[|text| - |tail|..] == tail
    then
      var ip := text[|REQUEST_PREFIX| .. |text| - |tail|];
      assert text == text[..|REQUEST_PREFIX|] + ip + text[|text| - |tail|..];
      Some(ip)
    else None
  }

  /** Each command names its camera recoverably, and the two commands are
      told apart by their tails: neither parses as the other. */
  lemma CommandsRoundTrip(ip: string)
    ensures ParseTarget(OpenCommand(ip), OPEN_TAIL) == Some(ip)
    ensures ParseTarget(CloseCommand(ip), CLOSE_TAIL) == Some(ip)
    ensures ParseTarget(OpenCommand(ip), CLOSE_TAIL) == None
    ensures ParseTarget(CloseCommand(ip), OPEN_TAIL) == None
  {
    var o := OpenCommand(ip);
    var c := CloseCommand(ip);
    assert o[..|REQUEST_PREFIX|] == REQUEST_PREFIX;
    assert o[|o| - |OPEN_TAIL|..] == OPEN_TAIL;
    assert o[|REQUEST_PREFIX| .. |o| - |OPEN_TAIL|] == ip;
    assert c[..|REQUEST_PREFIX|] == REQUEST_PREFIX;
    assert c[|c| - |CLOSE_TAIL|..] == CLOSE_TAIL;
    assert c[|REQUEST_PREFIX| .. |c| - |CLOSE_TAIL|] == ip;
    if |o| >= |REQUEST_PREFIX| + |CLOSE_TAIL| {
      assert o[|o| - 5] == 'N' && CLOSE_TAIL[|CLOSE_TAIL| - 5] == 'E';
      assert o[|o| - 5] == o[|o| - |CLOSE_TAIL|..][|CLOSE_TAIL| - 5];
    }
    if |c| >= |REQUEST_PREFIX| + |OPEN_TAIL| {
      assert c[|c| - 5] == 'E' && OPEN_TAIL[|OPEN_TAIL| - 5] == 'N';
      assert c[|c| - 5] == c[|c| - |OPEN_TAIL|..][|OPEN_TAIL| - 5];
    }
  }

  /** `pat` occurs in `text` starting at index `i`. */
  predicate OccursAt(text: string, pat: string, i: nat)
  {
    i + |pat| <= |text| && text[i..i + |pat|] == pat
  }

  /** Plain substring search, as Python's `in` on strings. */
  function Contains(text: string, pat: string): (r: bool)
    ensures r <==> exists i: nat :: OccursAt(text, pat, i)
    decreases |text|
  {
    if |text| < |pat| then false
    else if text[..|pat|] == pat then
      assert OccursAt(text, pat, 0);
      true
    else
      var rest := Contains(text[1..], pat);
      assert forall i: nat :: OccursAt(text[1..], pat, i) <==> OccursAt(text, pat, i + 1) by {
        forall i: nat ensures OccursAt(text[1..], pat, i) <==> OccursAt(text, pat, i + 1) {
          if i + 1 + |pat| <= |text| {
            assert text[1..][i..i + |pat|] == text[i + 1..i + 1 + |pat|];
          }
        }
      }
      assert !OccursAt(text, pat, 0);
      assert (exists i: nat :: OccursAt(text, pat, i)) ==> exists i: nat :: OccursAt(text[1..], pat, i) by {
        if exists i: nat :: OccursAt(text, pat, i) {
          var i: nat :| OccursAt(text, pat, i);
          assert i > 0;
          assert OccursAt(text[1..], pat, i - 1);
        }
      }
      rest
  }

  /** The listener's acceptance test on one decoded read. */
  function IsHandshakeAccepted(msg: string): (r: bool)
    ensures r <==> exists i: nat :: OccursAt(msg, "CSeq: 8", i)
  {
    Contains(msg, ACCEPT_MARKER)
  }

  /** The test is a bare substring match: the marker anywhere in a read is
      acceptance, including inside a longer sequence number such as 80. */
  lemma MarkerAnywhereAccepts(before: string, after: string)
    ensures IsHandshakeAccepted(before + "CSeq: 8" + after)
    ensures IsHandshakeAccepted("RTSP/1.0 200 OK\r\nCSeq: 80\r\n\r\n")
  {
    var m := before + "CSeq: 8" + after;
    assert OccursAt(m, ACCEPT_MARKER, |before|);
    var r := "RTSP/1.0 200 OK\r\nCSeq: 80\r\n\r\n";
    assert OccursAt(r, ACCEPT_MARKER, 17);
  }

  /** A read without the character '8' is never acceptance; in particular
      the reply to the CLOSE command, which carries `CSeq: 10`, is not. */
  lemma NoEightNoAcceptance(msg: string)
    requires forall j :: 0 <= j < |msg| ==> msg[j] != '8'
    ensures !IsHandshakeAccepted(msg)
    ensures !IsHandshakeAccepted("CSeq: 10\r\n")
  {
    forall i: nat | i + 7 <= |msg| ensures !OccursAt(msg, ACCEPT_MARKER, i) {
      assert msg[i..i + 7][6] == msg[i + 6] != '8';
    }
    var n := "CSeq: 10\r\n";
    forall i: nat | i + 7 <= |n| ensures !OccursAt(n, ACCEPT_MARKER, i) {
      assert i == 0 || i == 1 || i == 2 || i == 3;
      assert n[i..i + 7][6] == n[i + 6] != '8';
    }
  }

  /** The OPEN command carries the marker itself. */
  lemma OpenCommandCarriesMarker(ip: string)
    ensures IsHandshakeAccepted(OpenCommand(ip))
  {
    var o := OpenCommand(ip);
    var k := |REQUEST_PREFIX| + |ip| + 18;
    assert o[k..k + 7] == "CSeq: 8";
    assert OccursAt(o, ACCEPT_MARKER, k);
  }
}

=== FILE: fanout.dfy ===
/** `start_centralized_streaming` once the transcoder's output is known:
    slicing the PCM stream into chunks and enqueueing every chunk into every
    client, chunk by chunk, in client order. */
module Fanout {
  import opened Bytes
  import Frame
  import opened Session

  /** The chunks laid end to end. */
  function Concat(chunks: seq<Chunk>): seq<byte>
    decreases |chunks|
  {
    if chunks == [] then [] else chunks[0] + Concat(chunks[1..])
  }

  /** The successive `read(CHUNK_SIZE)` results of the transcoder's output;
      a short final read is padded with zero bytes to a full chunk. */
  function Chunks(data: seq<byte>): (r: seq<Chunk>)
    ensures forall i :: 0 <= i < |r| ==> Frame.IsFullChunk(r[i])
    ensures |r| == (|data| + Frame.CHUNK_SIZE - 1) / Frame.CHUNK_SIZE
    ensures |data| <= Frame.CHUNK_SIZE * |r| < |data| + Frame.CHUNK_SIZE
    ensures Concat(r) == data + Zeros(Frame.CHUNK_SIZE * |r| - |data|)
    decreases |data|
  {
    if data == [] then
      assert data + Zeros(0) == data;
      []
    else if |data| < Frame.CHUNK_SIZE then
      var last := data + Zeros(Frame.CHUNK_SIZE - |data|);
      assert Concat([last]) == last + Concat([]);
      [last]
    else
      var head := data[..Frame.CHUNK_SIZE];
      var tail := Chunks(data[Frame.CHUNK_SIZE..]);
      var r := [head] + tail;
      assert r[1..] == tail;
      assert Concat(r) == head + Concat(tail);
      assert data == head + data[Frame.CHUNK_SIZE..];
      r
  }

  /** Whole chunks come out exactly, with no padding. */
  lemma WholeChunksUnpadded(data: seq<byte>)
    requires |data| % Frame.CHUNK_SIZE == 0
    ensures Concat(Chunks(data)) == data
    ensures |Chunks(data)| == |data| / Frame.CHUNK_SIZE
  {
    var r := Chunks(data);
    assert Frame.CHUNK_SIZE * |r| == |data|;
    assert data + Zeros(0) == data;
  }

  /** The inner `for client in clients: client.enqueue(chunk)`. */
  function EnqueueEach(clients: seq<Client>, chunk: Chunk): (r: seq<Client>)
    ensures |r| == |clients|
    decreases |clients|
  {
    if clients == [] then [] else [Enqueue(clients[0], chunk)] + EnqueueEach(clients[1..], chunk)
  }

  /** Client i of the result is client i after its own `enqueue`: no client's
      queue is touched by another's. */
  lemma {:induction false} EnqueueEachPointwise(clients: seq<Client>, chunk: Chunk, i: nat)
    requires i < |clients|
    ensures EnqueueEach(clients, chunk)[i] == Enqueue(clients[i], chunk)
    decreases i
  {
    if i > 0 {
      EnqueueEachPointwise(clients[1..], chunk, i - 1);
      assert clients[1..][i - 1] == clients[i];
    }
  }

  /** The reading loop: each chunk in turn goes to every client. */
  function Distribute(clients: seq<Client>, chunks: seq<Chunk>): (r: seq<Client>)
    ensures |r| == |clients|
    ensures forall i :: 0 <= i < |r| ==> r[i] == clients[i].(queue := r[i].queue)
    decreases |chunks|
  {
    if chunks == [] then clients
    else
      var next := EnqueueEach(clients, chunks[0]);
      var r := Distribute(next, chunks[1..]);
      forall i | 0 <= i < |r| ensures r[i] == clients[i].(queue := r[i].queue) {
        EnqueueEachPointwise(clients, chunks[0], i);
      }
      r
  }

  /** Interleaving the clients chunk by chunk is the same as giving each
      client the whole chunk sequence on its own: clients do not share a
      queue and see the same chunks in the same order. */
  lemma {:induction false} DistributePerClient(clients: seq<Client>, chunks: seq<Chunk>)
    ensures |Distribute(clients, chunks)| == |clients|
    ensures forall i :: 0 <= i < |clients| ==> Distribute(clients, chunks)[i] == EnqueueAll(clients[i], chunks)
    decreases |chunks|
  {
    if chunks != [] {
      var next := EnqueueEach(clients, chunks[0]);
      DistributePerClient(next, chunks[1..]);
      forall i | 0 <= i < |clients|
        ensures Distribute(clients, chunks)[i] == EnqueueAll(clients[i], chunks)
      {
        EnqueueEachPointwise(clients, chunks[0], i);
      }
    }
  }

  /** The clients after the whole transcoder output has been read. */
  function StreamAll(data: seq<byte>, clients: seq<Client>): (r: seq<Client>)
    ensures |r| == |clients|
    ensures forall i :: 0 <= i < |clients| ==> r[i] == EnqueueAll(clients[i], Chunks(data))
  {
    DistributePerClient(clients, Chunks(data));
    Distribute(clients, Chunks(data))
  }

  /** Every client that has accepted, or whose queue has room, ends up with
      the padded chunks of the whole stream appended to its queue, whatever
      the other clients' state. */
  lemma StreamReachesEveryClient(data: seq<byte>, clients: seq<Client>)
    requires forall i :: 0 <= i < |clients| ==>
               clients[i].isConnected
               || |clients[i].queue| + |Chunks(data)| <= MAX_QUEUE_SIZE_UNCONNECTED
    ensures forall i :: 0 <= i < |clients| ==> StreamAll(data, clients)[i].queue == clients[i].queue + Chunks(data)
  {
    forall i | 0 <= i < |clients|
      ensures StreamAll(data, clients)[i].queue == clients[i].queue + Chunks(data)
    {
      if clients[i].isConnected {
        EnqueueAllConnected(clients[i], Chunks(data));
      } else {
        EnqueueAllKeepsNewest(clients[i], Chunks(data));
      }
    }
  }

  /** Two clients and 640 bytes of PCM: each queue receives the same two
      chunks, the two halves of the stream. */
  lemma TwoClientsTwoChunks(data: seq<byte>, a: Client, b: Client)
    requires |data| == 640 && a.queue == [] && b.queue == []
    ensures StreamAll(data, [a, b])[0].queue == [data[..320], data[320..]]
    ensures StreamAll(data, [a, b])[1].queue == [data[..320], data[320..]]
  {
    var r := Chunks(data);
    assert |r| == 2;
    assert Concat(r) == r[0] + Concat(r[1..]);
    assert Concat(r[1..]) == r[1] + Concat(r[2..]);
    assert data + Zeros(0) == data;
    assert r[0] == data[..320];
    assert r[1] == data[320..];
    assert r == [data[..320], data[320..]];
    StreamReachesEveryClient(data, [a, b]);
  }
}

=== FILE: frame.dfy ===
/** The camera's RTP-over-RTSP interleaved frame: a `$` marker, a channel
    byte, a 16-bit length written little-endian (section 10.12 of RFC 2326
    writes it big-endian), twelve zero bytes and the PCM chunk. */
module Frame {
  import opened Wrappers
  import opened Bytes

  /** Bytes of PCM per chunk: 160 samples of 16-bit mono audio. */
  const CHUNK_SIZE: nat := 320
  /** The value written into the length field of every frame. */
  const FRAME_LEN: nat := 332
  /** Zero bytes between the 4-byte header and the chunk. */
  const PADDING_LEN: nat := 12
  /** Bytes a frame adds in front of its chunk. */
  const OVERHEAD: nat := 4 + PADDING_LEN
  const MARKER: byte := 0x24
  const AUDIO_CHANNEL: byte := 0x02

  /** A chunk in the length the fan-out produces. */
  predicate IsFullChunk(c: seq<byte>) {
    |c| == CHUNK_SIZE
  }

  /** `struct.pack('<BBH', 0x24, 0x02, FRAME_LEN)`. */
  function Header(): (r: seq<byte>)
    ensures r == [0x24, 0x02, 0x4C, 0x01]
  {
    [MARKER, AUDIO_CHANNEL] + PackU16(FRAME_LEN, LittleEndian)
  }

  /** The bytes `_send_rtsp_frame` hands to `sendall` for one chunk.  The
      length field is the constant FRAME_LEN whatever the chunk's length, so
      it describes the frame correctly exactly for full chunks. */
  function EncodeFrame(chunk: seq<byte>): (r: seq<byte>)
    ensures |r| == OVERHEAD + |chunk|
    ensures r[..4] == [0x24, 0x02, 0x4C, 0x01]
    ensures forall i :: 4 <= i < OVERHEAD ==> r[i] == 0
    ensures r[OVERHEAD..] == chunk
    ensures ReadU16(r[2..4], LittleEndian) == FRAME_LEN
    ensures ReadU16(r[2..4], LittleEndian) == PADDING_LEN + |chunk| <==> IsFullChunk(chunk)
  {
    Header() + Zeros(PADDING_LEN) + chunk
  }

  /** One interleaved frame as a receiver splits it off a byte stream. */
  datatype Interleaved = Interleaved(channel: byte, payload: seq<byte>, rest: seq<byte>)

  /** Reads one frame off the front of `stream`, trusting the length field
      read in the given byte order; the first PADDING_LEN bytes of the body
      are the padding and the remainder is the payload. */
  function DecodeFrame(stream: seq<byte>, order: ByteOrder): (r: Option<Interleaved>)
    ensures r.Some? ==> |r.value.rest| + OVERHEAD <= |stream|
    ensures r.Some? ==> stream[0] == MARKER && r.value.channel == stream[1]
  {
    if |stream| < 4 || stream[0] != MARKER then None
    else
      var len := ReadU16(stream[2..4], order);
      if len < PADDING_LEN || |stream| < 4 + len then None
      else Some(Interleaved(stream[1], stream[4 + PADDING_LEN .. 4 + len], stream[4 + len ..]))
  }

  /** A receiver honouring the camera's little-endian length gets the full
      chunk back and the stream resumes right after the frame. */
  lemma DecodeEncodeFrame(chunk: seq<byte>, rest: seq<byte>)
    requires IsFullChunk(chunk)
    ensures DecodeFrame(EncodeFrame(chunk) + rest, LittleEndian)
            == Some(Interleaved(AUDIO_CHANNEL, chunk, rest))
  {
    var s := EncodeFrame(chunk) + rest;
    assert s[..|EncodeFrame(chunk)|] == EncodeFrame(chunk);
    assert s[2..4] == EncodeFrame(chunk)[2..4];
    assert s[4 + PADDING_LEN .. 4 + FRAME_LEN] == EncodeFrame(chunk)[OVERHEAD..];
    assert s[4 + FRAME_LEN ..] == rest;
  }

  /** A receiver that reads the length big-endian, as section 10.12 of
      RFC 2326 prescribes, sees 0x4C01 = 19457 and never recovers the chunk. */
  lemma StandardReaderMisframes(chunk: seq<byte>, rest: seq<byte>)
    requires IsFullChunk(chunk)
    ensures ReadU16(EncodeFrame(chunk)[2..4], BigEndian) == 19457
    ensures DecodeFrame(EncodeFrame(chunk) + rest, BigEndian)
            != Some(Interleaved(AUDIO_CHANNEL, chunk, rest))
    ensures var d := DecodeFrame(EncodeFrame(chunk) + rest, BigEndian);
            d.Some? ==> d.value.payload != chunk
  {
    var s := EncodeFrame(chunk) + rest;
    assert s[2..4] == EncodeFrame(chunk)[2..4];
    var d := DecodeFrame(s, BigEndian);
    if d.Some? {
      assert |d.value.rest| == |s| - 4 - 19457;
    }
  }

  /** The wire bytes for a run of chunks written back to back. */
  function EncodeAll(chunks: seq<seq<byte>>): (r: seq<byte>)
    ensures |r| == OVERHEAD * |chunks| + TotalLen(chunks)
  {
    if chunks == [] then [] else EncodeFrame(chunks[0]) + EncodeAll(chunks[1..])
  }

  /** Sum of the chunk lengths: the bytes `totalBytesSent` counts for them. */
  function TotalLen(chunks: seq<seq<byte>>): nat
  {
    if chunks == [] then 0 else |chunks[0]| + TotalLen(chunks[1..])
  }

  lemma {:induction false} TotalLenAppend(a: seq<seq<byte>>, b: seq<seq<byte>>)
    ensures TotalLen(a + b) == TotalLen(a) + TotalLen(b)
  {
    if a == [] {
      assert a + b == b;
    } else {
      assert (a + b)[1..] == a[1..] + b;
      TotalLenAppend(a[1..], b);
    }
  }

  /** Splits a stream into the payloads of consecutive audio-channel frames,
      reading lengths in the camera's byte order; None on anything else. */
  function DecodeAll(stream: seq<byte>): (r: Option<seq<seq<byte>>>)
    decreases |stream|
  {
    if stream == [] then Some([])
    else match DecodeFrame(stream, LittleEndian)
      case None => None
      case Some(f) =>
        if f.channel != AUDIO_CHANNEL then None
        else match DecodeAll(f.rest)
          case None => None
          case Some(tail) => Some([f.payload] + tail)
  }

  /** The camera recovers, in order, every full chunk written to the wire. */
  lemma {:induction false} DecodeAllEncodeAll(chunks: seq<seq<byte>>)
    requires forall i :: 0 <= i < |chunks| ==> IsFullChunk(chunks[i])
    ensures DecodeAll(EncodeAll(chunks)) == Some(chunks)
  {
    if chunks != [] {
      var tail := EncodeAll(chunks[1..]);
      DecodeEncodeFrame(chunks[0], tail);
      DecodeAllEncodeAll(chunks[1..]);
      assert EncodeAll(chunks) == EncodeFrame(chunks[0]) + tail;
      assert EncodeAll(chunks) != [];
      assert [chunks[0]] + chunks[1..] == chunks;
    }
  }
}

=== FILE: pacer.dfy ===
/** The "burst and maintain" pacer: one iteration of `_process_queue_loop`
    as a pure step over a client, the current time in milliseconds and the
    outcome of each socket write it attempts. */
module Pacer {
  import Frame
  import opened Session

  /** How far, in milliseconds of audio, the writes may run ahead of the
      wall clock since the burst before the pacer holds back. */
  const MAX_BUFFER_AHEAD_MS: nat := 2000

  /** What the loop does next: leave (not running), sleep, or go round again. */
  datatype Outcome = Exit | Sleep(ms: nat) | Continue

  /** The client after some writes, and the chunks whose write succeeded. */
  datatype SendResult = SendResult(client: Client, sent: seq<Chunk>)

  /** The client after one loop iteration, the chunks whose write succeeded
      (each went out framed by `Frame.EncodeFrame`) and what the loop does next. */
  datatype StepResult = StepResult(client: Client, sent: seq<Chunk>, outcome: Outcome)

  /** 16-bit mono PCM: two bytes per sample. */
  function BytesPerSecond(rate: nat): nat
  {
    rate * 2
  }

  /** `int((sample_rate * 2) / CHUNK_SIZE)`: the chunks in one second of
      audio (50 at 8 kHz), sent back to back before pacing starts. */
  function BurstCount(rate: nat): (n: nat)
    requires rate > 0
    ensures n * Frame.CHUNK_SIZE <= BytesPerSecond(rate) < (n + 1) * Frame.CHUNK_SIZE
  {
    (rate * 2) / Frame.CHUNK_SIZE
  }

  /** The throttle test `audio_time_sent_adj > time_elapsed + MAX_BUFFER_AHEAD_MS`
      with SPEED_MULTIPLIER = 1.0, multiplied out by the byte rate. */
  predicate Throttled(c: Client, rate: nat, now: int)
  {
    c.totalBytesSent * 1000 > (now - c.startTime + MAX_BUFFER_AHEAD_MS) * BytesPerSecond(rate)
  }

  /** The integer test is the source's floating-point test read over the
      reals: `total_bytes_sent / bytes_per_second * 1000` milliseconds of
      audio sent, against the elapsed milliseconds plus the allowed lead. */
  lemma ThrottledMatchesSource(c: Client, rate: nat, now: int)
    requires rate > 0
    ensures Throttled(c, rate, now)
            <==> (c.totalBytesSent as real / (rate * 2) as real) * 1000.0
                 > (now - c.startTime) as real + 2000.0
  {
    var t := c.totalBytesSent as real;
    var b := (rate * 2) as real;
    var e := (now - c.startTime) as real + 2000.0;
    CrossMultiply(t, b, e);
    assert (c.totalBytesSent * 1000) as real == t * 1000.0;
    assert ((now - c.startTime + MAX_BUFFER_AHEAD_MS) * BytesPerSecond(rate)) as real == e * b;
  }

  /** Comparing a quotient with a bound is comparing the dividend with the
      bound times the (positive) divisor. */
  lemma CrossMultiply(t: real, b: real, e: real)
    requires b > 0.0
    ensures (t / b) * 1000.0 > e <==> t * 1000.0 > e * b
  {
    var q := t / b;
    assert q * b == t;
    assert (q * 1000.0) * b == t * 1000.0;
    if q * 1000.0 > e {
      assert (q * 1000.0) * b > e * b;
    }
    if t * 1000.0 > e * b {
      assert (q * 1000.0) * b > e * b;
    }
  }

  /** The client may stream: running, accepted by the camera, with a socket. */
  predicate Ready(c: Client)
  {
    c.running && c.isConnected && c.hasSock
  }

  /** The chunks among `chunks` whose write succeeded, when they are written
      one after another as write attempts number k, k + 1, ... */
  function Delivered(chunks: seq<Chunk>, ok: nat -> bool, k: nat): seq<Chunk>
    decreases |chunks|
  {
    if chunks == [] then [] else (if ok(k) then [chunks[0]] else []) + Delivered(chunks[1..], ok, k + 1)
  }

  lemma {:induction false} DeliveredAppend(a: seq<Chunk>, b: seq<Chunk>, ok: nat -> bool, k: nat)
    ensures Delivered(a + b, ok, k) == Delivered(a, ok, k) + Delivered(b, ok, k + |a|)
    decreases |a|
  {
    if a == [] {
      assert a + b == b;
    } else {
      assert (a + b)[1..] == a[1..] + b;
      DeliveredAppend(a[1..], b, ok, k + 1);
    }
  }

  /** When every write succeeds, every chunk is delivered. */
  lemma {:induction false} DeliveredAllOk(chunks: seq<Chunk>, ok: nat -> bool, k: nat)
    requires forall i: nat :: ok(i)
    ensures Delivered(chunks, ok, k) == chunks
    decreases |chunks|
  {
    if chunks != [] {
      DeliveredAllOk(chunks[1..], ok, k + 1);
    }
  }

  /** Chunks no longer than CHUNK_SIZE. */
  predicate AtMostChunkSize(chunks: seq<Chunk>)
  {
    forall i :: 0 <= i < |chunks| ==> |chunks[i]| <= Frame.CHUNK_SIZE
  }

  /** Failed writes only lower the byte count: the bytes delivered are at
      most CHUNK_SIZE per chunk attempted. */
  lemma {:induction false} DeliveredBytesBound(chunks: seq<Chunk>, ok: nat -> bool, k: nat)
    requires AtMostChunkSize(chunks)
    ensures Frame.TotalLen(Delivered(chunks, ok, k)) <= Frame.CHUNK_SIZE * |chunks|
    decreases |chunks|
  {
    if chunks != [] {
      var head: seq<Chunk> := if ok(k) then [chunks[0]] else [];
      DeliveredBytesBound(chunks[1..], ok, k + 1);
      Frame.TotalLenAppend(head, Delivered(chunks[1..], ok, k + 1));
    }
  }

  /** `after` is `before` with some chunks taken off the front of the
      queue, written as attempts number k, k + 1, ..., of which exactly the
      chunks in `sent` got through and were counted in `totalBytesSent`. */
  predicate PoppedInOrder(before: Client, after: Client, sent: seq<Chunk>, ok: nat -> bool, k: nat)
  {
    && |after.queue| <= |before.queue|
    && after.queue == before.queue[|before.queue| - |after.queue|..]
    && sent == Delivered(before.queue[..|before.queue| - |after.queue|], ok, k)
    && after.totalBytesSent == before.totalBytesSent + Frame.TotalLen(sent)
  }

  /** Popping nothing is popping in order. */
  lemma PoppedNothing(c: Client, ok: nat -> bool, k: nat)
    ensures PoppedInOrder(c, c, [], ok, k)
  {
    assert c.queue[..0] == [];
  }

  /** Popping in order, then popping in order again, is popping in order. */
  lemma PoppedInOrderCompose(a: Client, b: Client, d: Client, s1: seq<Chunk>, s2: seq<Chunk>, ok: nat -> bool, k: nat, k2: nat)
    requires PoppedInOrder(a, b, s1, ok, k)
    requires k2 == k + (|a.queue| - |b.queue|) && PoppedInOrder(b, d, s2, ok, k2)
    ensures PoppedInOrder(a, d, s1 + s2, ok, k)
  {
    var q := a.queue;
    var p1 := |q| - |b.queue|;
    var p2 := |b.queue| - |d.queue|;
    assert b.queue[..p2] == q[p1..p1 + p2];
    assert d.queue == q[p1 + p2..];
    assert q[..p1 + p2] == q[..p1] + q[p1..p1 + p2];
    DeliveredAppend(q[..p1], q[p1..p1 + p2], ok, k);
    Frame.TotalLenAppend(s1, s2);
  }

  /** With every write succeeding, the chunks sent are exactly those popped. */
  lemma PoppedAllOk(before: Client, after: Client, sent: seq<Chunk>, ok: nat -> bool, k: nat)
    requires PoppedInOrder(before, after, sent, ok, k) && forall i: nat :: ok(i)
    ensures before.queue == sent + after.queue
  {
    var q := before.queue;
    var p := |q| - |after.queue|;
    DeliveredAllOk(q[..p], ok, k);
    assert q == q[..p] + q[p..];
  }

  /** Popping keeps every remaining chunk at most CHUNK_SIZE bytes. */
  lemma PoppedAtMostChunkSize(before: Client, after: Client, sent: seq<Chunk>, ok: nat -> bool, k: nat)
    requires PoppedInOrder(before, after, sent, ok, k) && AtMostChunkSize(before.queue)
    ensures AtMostChunkSize(after.queue)
  {
    var q := before.queue;
    var p := |q| - |after.queue|;
    forall i | 0 <= i < |after.queue| ensures |after.queue[i]| <= Frame.CHUNK_SIZE {
      assert after.queue[i] == q[p + i];
    }
  }

  /** `_send_rtsp_frame`: with no socket the chunk is silently lost; a
      successful write adds the chunk's length to `totalBytesSent`, a failed
      one (caught and logged) adds nothing. */
  function SendFrame(c: Client, chunk: Chunk, ok: bool): (r: SendResult)
    ensures r.client == c.(totalBytesSent := r.client.totalBytesSent)
    ensures r.sent == (if c.hasSock && ok then [chunk] else [])
    ensures r.client.totalBytesSent == c.totalBytesSent + Frame.TotalLen(r.sent)
  {
    if !c.hasSock then SendResult(c, [])
    else if ok then SendResult(c.(totalBytesSent := c.totalBytesSent + |chunk|), [chunk])
    else SendResult(c, [])
  }

  /** `_send_rtsp_frame(self.audio_queue.popleft())` as write attempt number k. */
  function SendHead(c: Client, ok: nat -> bool, k: nat): (r: SendResult)
    requires c.hasSock && c.queue != []
    ensures PoppedInOrder(c, r.client, r.sent, ok, k)
    ensures r.client == c.(queue := c.queue[1..], totalBytesSent := r.client.totalBytesSent)
    ensures r.sent == (if ok(k) then [c.queue[0]] else [])
  {
    var s := SendFrame(c.(queue := c.queue[1..]), c.queue[0], ok(k));
    assert c.queue[..1] == [c.queue[0]];
    s
  }

  /** The burst loop: pops the first `n` chunks, writing them as attempts
      number k, k + 1, ... */
  function Burst(c: Client, n: nat, ok: nat -> bool, k: nat): (r: SendResult)
    requires c.hasSock && n <= |c.queue|
    ensures PoppedInOrder(c, r.client, r.sent, ok, k)
    ensures |r.client.queue| == |c.queue| - n
    ensures r.client == c.(queue := r.client.queue, totalBytesSent := r.client.totalBytesSent)
    decreases n
  {
    if n == 0 then
      assert c.queue[..0] == [];
      SendResult(c, [])
    else
      var s1 := SendHead(c, ok, k);
      var s2 := Burst(s1.client, n - 1, ok, k + 1);
      PoppedInOrderCompose(c, s1.client, s2.client, s1.sent, s2.sent, ok, k, k + 1);
      SendResult(s2.client, s1.sent + s2.sent)
  }

  /** The part of an iteration after the burst check: the throttle test,
      then at most one chunk popped and written as attempt number k. */
  function Maintain(c: Client, rate: nat, now: int, ok: nat -> bool, k: nat): (r: StepResult)
    requires c.hasSock
    ensures PoppedInOrder(c, r.client, r.sent, ok, k)
    ensures r.client == c.(queue := r.client.queue, totalBytesSent := r.client.totalBytesSent)
    ensures Throttled(c, rate, now) ==> r == StepResult(c, [], Sleep(10))
    ensures !Throttled(c, rate, now) ==> r.outcome == Continue
    ensures !Throttled(c, rate, now) && c.queue != [] ==>
              r.client.queue == c.queue[1..] && r.sent == (if ok(k) then [c.queue[0]] else [])
    ensures |c.queue| - |r.client.queue| == (if Throttled(c, rate, now) || c.queue == [] then 0 else 1)
  {
    if Throttled(c, rate, now) then
      assert c.queue[..0] == [];
      StepResult(c, [], Sleep(10))
    else if c.queue == [] then StepResult(c, [], Continue)
    else
      var s := SendHead(c, ok, k);
      StepResult(s.client, s.sent, Continue)
  }

  /** The first streaming iteration once more than a burst is queued: the
      burst goes out, `startTime` is set, and, there being no `continue`
      after the burst, the throttle test and a single send follow at once. */
  function ColdStart(c: Client, rate: nat, now: int, ok: nat -> bool): (r: StepResult)
    requires rate > 0 && c.hasSock && |c.queue| > BurstCount(rate)
    ensures PoppedInOrder(c, r.client, r.sent, ok, 0)
    ensures r.client == c.(queue := r.client.queue, startTime := now, totalBytesSent := r.client.totalBytesSent)
    ensures r.outcome == Continue <==> |c.queue| - |r.client.queue| == BurstCount(rate) + 1
    ensures r.outcome != Continue <==> |c.queue| - |r.client.queue| == BurstCount(rate)
  {
    var n := BurstCount(rate);
    var b := Burst(c, n, ok, 0);
    var c1 := b.client.(startTime := now);
    var m := Maintain(c1, rate, now, ok, n);
    PoppedInOrderCompose(c, c1, m.client, b.sent, m.sent, ok, 0, n);
    StepResult(m.client, b.sent + m.sent, m.outcome)
  }

  /** The iteration changes nothing: the client is not ready, the queue is
      empty, the opening burst is not yet complete, or the throttle holds. */
  predicate Waits(c: Client, rate: nat, now: int)
    requires rate > 0
  {
    || !Ready(c)
    || c.queue == []
    || (c.startTime == UNSET && |c.queue| <= BurstCount(rate))
    || (c.startTime != UNSET && Throttled(c, rate, now))
  }

  /** One iteration of `_process_queue_loop`.  `ok(i)` is the outcome of the
      i-th socket write the iteration attempts.  Chunks always leave from
      the front of the queue, `totalBytesSent` grows by exactly the bytes of
      the chunks whose write succeeded, and a waiting iteration changes
      nothing. */
  function Step(c: Client, rate: nat, now: int, ok: nat -> bool): (r: StepResult)
    requires rate > 0
    ensures PoppedInOrder(c, r.client, r.sent, ok, 0)
    ensures r.client == c.(queue := r.client.queue, startTime := r.client.startTime,
                           totalBytesSent := r.client.totalBytesSent)
    ensures Waits(c, rate, now) ==> r.client == c && r.sent == [] && r.outcome != Continue
  {
    PoppedNothing(c, ok, 0);
    if !c.running then StepResult(c, [], Exit)
    else if !c.isConnected || !c.hasSock then StepResult(c, [], Sleep(100))
    else if c.queue == [] then StepResult(c, [], Sleep(10))
    else if c.startTime == UNSET then
      if |c.queue| <= BurstCount(rate) then StepResult(c, [], Sleep(100))
      else ColdStart(c, rate, now, ok)
    else Maintain(c, rate, now, ok, 0)
  }

  /** How long a waiting iteration sleeps: not running ends the loop; not
      connected or no socket, 100 ms; empty queue, 10 ms; still buffering
      for the burst, 100 ms; throttled, 10 ms. */
  lemma StepWaitOutcome(c: Client, rate: nat, now: int, ok: nat -> bool)
    requires rate > 0
    ensures !c.running ==> Step(c, rate, now, ok).outcome == Exit
    ensures c.running && !(c.isConnected && c.hasSock) ==> Step(c, rate, now, ok).outcome == Sleep(100)
    ensures Ready(c) && c.queue == [] ==> Step(c, rate, now, ok).outcome == Sleep(10)
    ensures Ready(c) && c.queue != [] && c.startTime == UNSET && |c.queue| <= BurstCount(rate) ==>
              Step(c, rate, now, ok).outcome == Sleep(100)
    ensures Ready(c) && c.queue != [] && c.startTime != UNSET && Throttled(c, rate, now) ==>
              Step(c, rate, now, ok).outcome == Sleep(10)
  {
  }

  /** Cold start: with more than a burst queued, exactly the burst leaves,
      plus one more chunk unless the throttle holds right after it, and
      `startTime` becomes the current time. */
  lemma StepColdStart(c: Client, rate: nat, now: int, ok: nat -> bool)
    requires rate > 0 && Ready(c) && c.startTime == UNSET && |c.queue| > BurstCount(rate)
    ensures var r := Step(c, rate, now, ok);
            && r.client.startTime == now
            && (r.outcome == Continue <==> |c.queue| - |r.client.queue| == BurstCount(rate) + 1)
            && (r.outcome != Continue <==> |c.queue| - |r.client.queue| == BurstCount(rate))
  {
  }

  /** Steady state: when the throttle does not hold, exactly the head chunk
      leaves, and it is counted only if its write succeeded. */
  lemma StepSingleSend(c: Client, rate: nat, now: int, ok: nat -> bool)
    requires rate > 0 && Ready(c) && c.queue != [] && c.startTime != UNSET && !Throttled(c, rate, now)
    ensures var r := Step(c, rate, now, ok);
            && r.client.queue == c.queue[1..]
            && r.client.startTime == c.startTime
            && r.outcome == Continue
            && r.sent == (if ok(0) then [c.queue[0]] else [])
            && r.client.totalBytesSent == c.totalBytesSent + (if ok(0) then |c.queue[0]| else 0)
  {
  }

  /** A step when every write in it succeeds. */
  function AllOk(i: nat): bool
  {
    true
  }

  /** Starting from nothing sent, the burst is at most one second of audio,
      so right after it (with `startTime` just set) the throttle does not
      hold, and the chunks left are still at most CHUNK_SIZE bytes. */
  lemma BurstFromNothing(c: Client, rate: nat, now: int, ok: nat -> bool)
    requires rate > 0 && c.hasSock && c.totalBytesSent == 0
    requires |c.queue| > BurstCount(rate) && AtMostChunkSize(c.queue)
    ensures var c1 := Burst(c, BurstCount(rate), ok, 0).client.(startTime := now);
            && c1.totalBytesSent <= BytesPerSecond(rate)
            && !Throttled(c1, rate, now)
            && AtMostChunkSize(c1.queue)
  {
    var n := BurstCount(rate);
    var b := Burst(c, n, ok, 0);
    var front := c.queue[..n];
    assert AtMostChunkSize(front);
    assert b.sent == Delivered(front, ok, 0);
    DeliveredBytesBound(front, ok, 0);
    assert b.client.totalBytesSent <= Frame.CHUNK_SIZE * n;
    PoppedAtMostChunkSize(c, b.client, b.sent, ok, 0);
    NotThrottledWithinOneSecond(b.client.(startTime := now), rate, now);
  }

  /** Right after `startTime` is set, up to one second of audio passes the
      throttle. */
  lemma NotThrottledWithinOneSecond(c: Client, rate: nat, now: int)
    requires c.startTime == now && c.totalBytesSent <= BytesPerSecond(rate)
    ensures !Throttled(c, rate, now)
  {
    var bps := BytesPerSecond(rate);
    MulMonotone(c.totalBytesSent, bps, 1000);
    assert bps * 1000 <= 2000 * bps;
  }

  /** The fall-through after the burst: starting from nothing sent, the
      burst is at most one second of audio, which the throttle never holds
      back, so the first streaming iteration pops BurstCount + 1 chunks. */
  lemma ColdStartSendsOneMore(c: Client, rate: nat, now: int, ok: nat -> bool)
    requires rate > 0 && Ready(c) && c.startTime == UNSET && c.totalBytesSent == 0
    requires |c.queue| > BurstCount(rate) && AtMostChunkSize(c.queue)
    ensures |c.queue| - |Step(c, rate, now, ok).client.queue| == BurstCount(rate) + 1
    ensures Step(c, rate, now, ok).outcome == Continue
  {
    var n := BurstCount(rate);
    BurstFromNothing(c, rate, now, ok);
    var c1 := Burst(c, n, ok, 0).client.(startTime := now);
    assert Maintain(c1, rate, now, ok, n).outcome == Continue;
    assert Step(c, rate, now, ok) == ColdStart(c, rate, now, ok);
  }

  /** A queue split into a popped prefix and a remaining suffix. */
  lemma SplitAt(q: seq<Chunk>, front: seq<Chunk>, back: seq<Chunk>, n: nat)
    requires q == front + back && |back| == |q| - n
    ensures front == q[..n] && back == q[n..]
  {
  }

  /** At 8 kHz up to 50 queued chunks are still buffering: nothing moves. */
  lemma BufferingAt8kHz(c: Client, now: int)
    requires Ready(c) && c.startTime == UNSET && 0 < |c.queue| <= 50
    ensures Step(c, 8000, now, AllOk) == StepResult(c, [], Sleep(100))
  {
    var rate := 8000;
    assert BurstCount(rate) == 50;
    StepWaitOutcome(c, rate, now, AllOk);
  }

  /** With every write succeeding, the first streaming iteration sends the
      first BurstCount + 1 chunks in queue order. */
  lemma FirstSendAllOk(c: Client, rate: nat, now: int)
    requires rate > 0 && Ready(c) && c.startTime == UNSET && c.totalBytesSent == 0
    requires AtMostChunkSize(c.queue) && |c.queue| > BurstCount(rate)
    ensures Step(c, rate, now, AllOk).sent == c.queue[..BurstCount(rate) + 1]
    ensures Step(c, rate, now, AllOk).client.queue == c.queue[BurstCount(rate) + 1..]
  {
    var r := Step(c, rate, now, AllOk);
    ColdStartSendsOneMore(c, rate, now, AllOk);
    PoppedAllOk(c, r.client, r.sent, AllOk, 0);
    SplitAt(c.queue, r.sent, r.client.queue, BurstCount(rate) + 1);
  }

  /** At 8 kHz, with more than 50 chunks queued and every write succeeding,
      the first streaming iteration sends the first 51 in queue order. */
  lemma FirstSendAt8kHz(c: Client, now: int)
    requires Ready(c) && c.startTime == UNSET && c.totalBytesSent == 0
    requires AtMostChunkSize(c.queue) && |c.queue| > 50
    ensures Step(c, 8000, now, AllOk).sent == c.queue[..51]
    ensures Step(c, 8000, now, AllOk).client.queue == c.queue[51..]
  {
    assert BurstCount(8000) == 50;
    FirstSendAllOk(c, 8000, now);
  }

  /** The burst count the source uses at 8 kHz is one second, 50 chunks:
      50 queued chunks wait, 51 go out in a single iteration. */
  lemma ColdStartAt8kHz(c: Client, now: int)
    requires Ready(c) && c.startTime == UNSET && c.totalBytesSent == 0
    requires AtMostChunkSize(c.queue)
    ensures BurstCount(8000) == 50
    ensures 0 < |c.queue| <= 50 ==> Step(c, 8000, now, AllOk) == StepResult(c, [], Sleep(100))
    ensures |c.queue| > 50 ==>
              Step(c, 8000, now, AllOk).sent == c.queue[..51]
              && Step(c, 8000, now, AllOk).client.queue == c.queue[51..]
  {
    if |c.queue| > 50 {
      FirstSendAt8kHz(c, now);
    } else if |c.queue| > 0 {
      BufferingAt8kHz(c, now);
    }
  }

  lemma MulMonotone(a: int, b: int, k: nat)
    requires a <= b
    ensures a * k <= b * k
  {
  }

  /** The lag bound the pacer exists for: once the burst is out, the audio
      written (in ms) never exceeds the wall time since the burst plus
      MAX_BUFFER_AHEAD_MS plus one chunk's worth; before it nothing is written. */
  predicate LeadBounded(c: Client, rate: nat, now: int)
  {
    && (c.startTime == UNSET ==> c.totalBytesSent == 0)
    && (c.startTime != UNSET ==>
          c.totalBytesSent * 1000
          <= (now - c.startTime + MAX_BUFFER_AHEAD_MS) * BytesPerSecond(rate) + Frame.CHUNK_SIZE * 1000)
  }

  /** The bound survives the passage of time. */
  lemma LeadBoundedLater(c: Client, rate: nat, before: int, now: int)
    requires LeadBounded(c, rate, before) && before <= now
    ensures LeadBounded(c, rate, now)
  {
    if c.startTime != UNSET {
      MulMonotone(before - c.startTime + MAX_BUFFER_AHEAD_MS, now - c.startTime + MAX_BUFFER_AHEAD_MS, BytesPerSecond(rate));
    }
  }

  /** A single send after a passed throttle test adds at most one chunk. */
  lemma MaintainBounded(c: Client, rate: nat, now: int, ok: nat -> bool, k: nat)
    requires c.hasSock && c.startTime != UNSET && AtMostChunkSize(c.queue)
    requires !Throttled(c, rate, now)
    ensures LeadBounded(Maintain(c, rate, now, ok, k).client, rate, now)
  {
    var r := Maintain(c, rate, now, ok, k);
    var added := r.client.totalBytesSent - c.totalBytesSent;
    assert 0 <= added <= Frame.CHUNK_SIZE by {
      if c.queue != [] && !Throttled(c, rate, now) {
        assert r.sent == [] || r.sent == [c.queue[0]];
      }
    }
    assert r.client.totalBytesSent * 1000 == c.totalBytesSent * 1000 + added * 1000;
  }

  /** The cold start leaves the lead within bounds. */
  lemma ColdStartBounded(c: Client, rate: nat, now: int, ok: nat -> bool)
    requires rate > 0 && now != UNSET && c.hasSock && c.totalBytesSent == 0
    requires |c.queue| > BurstCount(rate) && AtMostChunkSize(c.queue)
    ensures LeadBounded(ColdStart(c, rate, now, ok).client, rate, now)
  {
    var n := BurstCount(rate);
    BurstFromNothing(c, rate, now, ok);
    var c1 := Burst(c, n, ok, 0).client.(startTime := now);
    MaintainBounded(c1, rate, now, ok, n);
    assert ColdStart(c, rate, now, ok).client == Maintain(c1, rate, now, ok, n).client;
  }

  /** Every iteration keeps the lag bound, whatever the write outcomes, as
      long as time does not run backwards and chunks are at most CHUNK_SIZE
      bytes.  (`now` is a wall-clock reading, never the 0 sentinel.) */
  lemma StepKeepsLeadBounded(c: Client, rate: nat, before: int, now: int, ok: nat -> bool)
    requires rate > 0 && before <= now && now != UNSET
    requires LeadBounded(c, rate, before) && AtMostChunkSize(c.queue)
    ensures LeadBounded(Step(c, rate, now, ok).client, rate, now)
  {
    LeadBoundedLater(c, rate, before, now);
    if Ready(c) && c.queue != [] {
      if c.startTime == UNSET && |c.queue| > BurstCount(rate) {
        ColdStartBounded(c, rate, now, ok);
        assert Step(c, rate, now, ok) == ColdStart(c, rate, now, ok);
      } else if c.startTime != UNSET && !Throttled(c, rate, now) {
        MaintainBounded(c, rate, now, ok, 0);
        assert Step(c, rate, now, ok) == Maintain(c, rate, now, ok, 0);
      } else {
        assert Waits(c, rate, now);
      }
    } else {
      assert Waits(c, rate, now);
    }
  }

  /** A freshly constructed client meets the lag bound at any time: its
      burst is not sent and nothing is counted. */
  lemma NewClientLeadBounded(ip: string, rate: nat, now: int)
    ensures LeadBounded(NewClient(ip), rate, now) && AtMostChunkSize(NewClient(ip).queue)
  {
  }

  /** `enqueue` keeps the bound: it touches neither the start time nor the
      byte count, and the queue gains at most one more chunk-sized entry. */
  lemma EnqueueKeepsLeadBounded(c: Client, chunk: Chunk, rate: nat, now: int)
    requires LeadBounded(c, rate, now) && AtMostChunkSize(c.queue) && |chunk| <= Frame.CHUNK_SIZE
    ensures LeadBounded(Enqueue(c, chunk), rate, now)
    ensures AtMostChunkSize(Enqueue(c, chunk).queue)
  {
    var e := Enqueue(c, chunk);
    LeadBoundedSameCounts(c, e, rate, now);
    AppendAtMostChunkSize(c.queue, chunk);
    SuffixAtMostChunkSize(e.queue, c.queue + [chunk]);
  }

  /** `connect`, whatever its outcome, keeps the bound: it touches neither
      the start time, the byte count nor the queue. */
  lemma ConnectKeepsLeadBounded(c: Client, outcome: ConnectOutcome, rate: nat, now: int)
    requires c.running && LeadBounded(c, rate, now) && AtMostChunkSize(c.queue)
    ensures LeadBounded(Connect(c, outcome).client, rate, now)
    ensures AtMostChunkSize(Connect(c, outcome).client.queue)
  {
    LeadBoundedSameCounts(c, Connect(c, outcome).client, rate, now);
  }

  /** The unconnected queue bound is 1000 seconds of 8 kHz audio. */
  lemma QueueBoundAt8kHz()
    ensures MAX_QUEUE_SIZE_UNCONNECTED * Frame.CHUNK_SIZE == 1000 * BytesPerSecond(8000)
  {
  }

  /** The bound reads only the start time and the byte count. */
  lemma LeadBoundedSameCounts(a: Client, b: Client, rate: nat, now: int)
    requires LeadBounded(a, rate, now)
    requires b.startTime == a.startTime && b.totalBytesSent == a.totalBytesSent
    ensures LeadBounded(b, rate, now)
  {
  }

  lemma AppendAtMostChunkSize(q: seq<Chunk>, chunk: Chunk)
    requires AtMostChunkSize(q) && |chunk| <= Frame.CHUNK_SIZE
    ensures AtMostChunkSize(q + [chunk])
  {
    var full := q + [chunk];
    forall i | 0 <= i < |full| ensures |full[i]| <= Frame.CHUNK_SIZE {
      if i < |q| {
        assert full[i] == q[i];
      }
    }
  }

  lemma SuffixAtMostChunkSize(q: seq<Chunk>, full: seq<Chunk>)
    requires IsSuffix(q, full) && AtMostChunkSize(full)
    ensures AtMostChunkSize(q)
  {
    forall i | 0 <= i < |q| ensures |q[i]| <= Frame.CHUNK_SIZE {
      assert q[i] == full[|full| - |q| + i];
    }
  }

  /** One loop iteration's wall-clock reading and write outcomes. */
  datatype Tick = Tick(now: int, ok: nat -> bool)

  /** Consecutive loop iterations with no enqueue in between.  Across the
      run chunks leave only from the front of the queue, the byte count grows
      by exactly the bytes delivered, and nothing but the queue, the start
      time and the byte count changes. */
  function Run(c: Client, rate: nat, ticks: seq<Tick>): (r: SendResult)
    requires rate > 0
    ensures r.client == c.(queue := r.client.queue, startTime := r.client.startTime,
                           totalBytesSent := r.client.totalBytesSent)
    decreases |ticks|
  {
    if ticks == [] then
      SendResult(c, [])
    else
      var s := Step(c, rate, ticks[0].now, ticks[0].ok);
      var rest := Run(s.client, rate, ticks[1..]);
      SendResult(rest.client, s.sent + rest.sent)
  }

  /** Over any run, chunks leave the queue only from its front, and the
      byte count grows by exactly the size of the frames written. */
  lemma {:induction false} RunAccounting(c: Client, rate: nat, ticks: seq<Tick>)
    requires rate > 0
    ensures IsSuffix(Run(c, rate, ticks).client.queue, c.queue)
    ensures Run(c, rate, ticks).client.totalBytesSent
            == c.totalBytesSent + Frame.TotalLen(Run(c, rate, ticks).sent)
    decreases |ticks|
  {
    if ticks == [] {
      assert c.queue[|c.queue| - |c.queue|..] == c.queue;
    } else {
      var s := Step(c, rate, ticks[0].now, ticks[0].ok);
      var rest := Run(s.client, rate, ticks[1..]);
      RunAccounting(s.client, rate, ticks[1..]);
      RunUnfold(c, rate, ticks);
      SuffixTrans(rest.client.queue, s.client.queue, c.queue);
      Frame.TotalLenAppend(s.sent, rest.sent);
    }
  }

  /** Every write attempt of the iteration succeeds. */
  ghost predicate AllWritesOk(t: Tick)
  {
    forall i: nat :: t.ok(i)
  }

  /** With every write succeeding, an iteration delivers exactly the chunks
      it pops. */
  lemma StepAllOkDeliversPopped(c: Client, rate: nat, t: Tick)
    requires rate > 0 && AllWritesOk(t)
    ensures c.queue == Step(c, rate, t.now, t.ok).sent + Step(c, rate, t.now, t.ok).client.queue
  {
    var s := Step(c, rate, t.now, t.ok);
    PoppedAllOk(c, s.client, s.sent, t.ok, 0);
  }

  /** Across any run of iterations whose writes all succeed, the camera
      receives exactly the chunks that left the queue, in queue order. */
  lemma {:induction false} RunDeliversInOrder(c: Client, rate: nat, ticks: seq<Tick>)
    requires rate > 0
    requires forall k :: 0 <= k < |ticks| ==> AllWritesOk(ticks[k])
    ensures c.queue == Run(c, rate, ticks).sent + Run(c, rate, ticks).client.queue
    decreases |ticks|
  {
    if ticks != [] {
      var s := Step(c, rate, ticks[0].now, ticks[0].ok);
      StepAllOkDeliversPopped(c, rate, ticks[0]);
      assert forall k :: 0 <= k < |ticks[1..]| ==> AllWritesOk(ticks[1..][k]) by {
        forall k | 0 <= k < |ticks[1..]| ensures AllWritesOk(ticks[1..][k]) {
          assert ticks[1..][k] == ticks[k + 1];
        }
      }
      RunDeliversInOrder(s.client, rate, ticks[1..]);
      RunUnfold(c, rate, ticks);
      var rest := Run(s.client, rate, ticks[1..]);
      SplitTwice(c.queue, s.sent, s.client.queue, rest.sent, rest.client.queue);
    }
  }

  lemma RunUnfold(c: Client, rate: nat, ticks: seq<Tick>)
    requires rate > 0 && ticks != []
    ensures var s := Step(c, rate, ticks[0].now, ticks[0].ok);
            var rest := Run(s.client, rate, ticks[1..]);
            Run(c, rate, ticks) == SendResult(rest.client, s.sent + rest.sent)
  {
  }

  lemma SplitTwice(q: seq<Chunk>, a: seq<Chunk>, b: seq<Chunk>, c: seq<Chunk>, d: seq<Chunk>)
    requires q == a + b && b == c + d
    ensures q == (a + c) + d
  {
  }

  /** Over a run with non-decreasing clock readings the lag bound holds
      after every iteration. */
  lemma RunKeepsLeadBounded(c: Client, rate: nat, before: int, ticks: seq<Tick>)
    requires rate > 0 && LeadBounded(c, rate, before) && AtMostChunkSize(c.queue)
    requires forall i :: 0 <= i < |ticks| ==> ticks[i].now != UNSET
    requires forall i :: 0 <= i < |ticks| ==> before <= ticks[i].now
    requires forall i, j :: 0 <= i < j < |ticks| ==> ticks[i].now <= ticks[j].now
    ensures ticks != [] ==> LeadBounded(Run(c, rate, ticks).client, rate, ticks[|ticks| - 1].now)
  {
    RunKeepsLeadBoundedFrom(c, rate, before, ticks);
  }

  /** The induction behind `RunKeepsLeadBounded`, over the clock conditions
      packed into one predicate. */
  lemma {:induction false} RunKeepsLeadBoundedFrom(c: Client, rate: nat, before: int, ticks: seq<Tick>)
    requires rate > 0 && LeadBounded(c, rate, before) && AtMostChunkSize(c.queue)
    requires ClockForward(before, ticks)
    ensures ticks != [] ==> LeadBounded(Run(c, rate, ticks).client, rate, ticks[|ticks| - 1].now)
    decreases |ticks|
  {
    if ticks != [] {
      var s := Step(c, rate, ticks[0].now, ticks[0].ok);
      var rest := ticks[1..];
      TicksTail(before, ticks);
      StepKeepsLeadBounded(c, rate, before, ticks[0].now, ticks[0].ok);
      PoppedAtMostChunkSize(c, s.client, s.sent, ticks[0].ok, 0);
      RunUnfold(c, rate, ticks);
      if rest == [] {
        assert ticks[|ticks| - 1] == ticks[0];
      } else {
        RunKeepsLeadBoundedFrom(s.client, rate, ticks[0].now, rest);
        assert rest[|rest| - 1] == ticks[|ticks| - 1];
      }
    }
  }

  /** Wall-clock readings of a run: never the 0 sentinel, none earlier than
      `before`, and never running backwards. */
  predicate ClockForward(before: int, ticks: seq<Tick>)
  {
    && (forall i :: 0 <= i < |ticks| ==> ticks[i].now != UNSET)
    && (forall i :: 0 <= i < |ticks| ==> before <= ticks[i].now)
    && (forall i, j :: 0 <= i < j < |ticks| ==> ticks[i].now <= ticks[j].now)
  }

  /** The clock conditions of a run carry over to its tail, with the first
      reading as the new lower bound. */
  lemma TicksTail(before: int, ticks: seq<Tick>)
    requires ticks != [] && ClockForward(before, ticks)
    ensures ticks[0].now != UNSET && before <= ticks[0].now
    ensures ClockForward(ticks[0].now, ticks[1..])
  {
  }
}

=== FILE: session.dfy ===
/** One camera client (`CameraClient`): its flags, its audio queue and the
    sequential effect of connecting, listening, enqueueing and stopping.
    Sockets appear only as a present/absent flag and the outcome of writes. */
module Session {
  import opened Bytes
  import Control

  /** A PCM chunk as the fan-out hands it over. */
  type Chunk = seq<byte>

  /** Queue bound that applies while the camera has not accepted the stream
      (1000 s, under 17 minutes, of 8 kHz audio). */
  const MAX_QUEUE_SIZE_UNCONNECTED: nat := 50000

  /** `start_time == 0` means the opening burst has not been sent yet. */
  const UNSET: int := 0

  /** The fields of `CameraClient` that its logic reads and writes.
      `hasSock` stands for `sock is not None`; `listening` says whether the
      listener thread is still reading replies. */
  datatype Client = Client(
    ip: string,
    running: bool,
    hasSock: bool,
    listening: bool,
    isConnected: bool,
    queue: seq<Chunk>,
    startTime: int,
    totalBytesSent: nat)

  /** A client as constructed, before `connect` runs: running, with no
      socket, not accepted, nothing queued, the burst not yet sent and
      nothing counted. */
  function NewClient(ip: string): (r: Client)
    ensures r.ip == ip && r.running && r.queue == []
    ensures !r.hasSock && !r.listening && !r.isConnected
    ensures r.startTime == UNSET && r.totalBytesSent == 0
  {
    Client(ip, true, false, false, false, [], UNSET, 0)
  }

  /** `a` is what is left of `b` after dropping some of its oldest entries. */
  predicate IsSuffix<T(==)>(a: seq<T>, b: seq<T>)
  {
    |a| <= |b| && a == b[|b| - |a|..]
  }

  /** The newest `n` entries of `s`, or all of them if there are fewer. */
  function Newest<T>(s: seq<T>, n: nat): seq<T>
  {
    if |s| <= n then s else s[|s| - n..]
  }

  /** `enqueue`: appends the chunk and, while the camera has not accepted,
      drops the oldest entry once the queue exceeds its bound. */
  function Enqueue(c: Client, chunk: Chunk): (r: Client)
    ensures r == c.(queue := r.queue)
    ensures |r.queue| > 0 && r.queue[|r.queue| - 1] == chunk
    ensures IsSuffix(r.queue, c.queue + [chunk])
    ensures c.isConnected ==> r.queue == c.queue + [chunk]
    ensures !c.isConnected && |c.queue| < MAX_QUEUE_SIZE_UNCONNECTED ==> r.queue == c.queue + [chunk]
    ensures !c.isConnected && |c.queue| >= MAX_QUEUE_SIZE_UNCONNECTED ==> |r.queue| == |c.queue|
    ensures !c.isConnected && |c.queue| <= MAX_QUEUE_SIZE_UNCONNECTED ==> |r.queue| <= MAX_QUEUE_SIZE_UNCONNECTED
  {
    var q := c.queue + [chunk];
    if !c.isConnected && |q| > MAX_QUEUE_SIZE_UNCONNECTED then c.(queue := q[1..])
    else c.(queue := q)
  }

  /** A run of `enqueue` calls, oldest chunk first. */
  function EnqueueAll(c: Client, chunks: seq<Chunk>): (r: Client)
    ensures r == c.(queue := r.queue)
    decreases |chunks|
  {
    if chunks == [] then c else EnqueueAll(Enqueue(c, chunks[0]), chunks[1..])
  }

  /** Whatever the connection state, a run of enqueues leaves the old queue
      followed by the new chunks, with some of the oldest entries dropped. */
  lemma {:induction false} EnqueueAllSuffix(c: Client, chunks: seq<Chunk>)
    ensures IsSuffix(EnqueueAll(c, chunks).queue, c.queue + chunks)
    decreases |chunks|
  {
    if chunks == [] {
      assert c.queue + chunks == c.queue;
    } else {
      var c1 := Enqueue(c, chunks[0]);
      var r := EnqueueAll(c1, chunks[1..]);
      EnqueueAllSuffix(c1, chunks[1..]);
      AppendFirst(c.queue, chunks);
      SuffixAppend(c1.queue, c.queue + [chunks[0]], chunks[1..]);
      SuffixTrans(r.queue, c1.queue + chunks[1..], c.queue + chunks);
    }
  }

  /** Appending the same entries keeps a suffix a suffix. */
  lemma SuffixAppend<T>(a: seq<T>, b: seq<T>, xs: seq<T>)
    requires IsSuffix(a, b)
    ensures IsSuffix(a + xs, b + xs)
  {
    assert (b + xs)[|b + xs| - |a + xs|..] == b[|b| - |a|..] + xs;
  }

  /** A suffix of a suffix is a suffix. */
  lemma SuffixTrans<T>(a: seq<T>, b: seq<T>, d: seq<T>)
    requires IsSuffix(a, b) && IsSuffix(b, d)
    ensures IsSuffix(a, d)
  {
    assert d[|d| - |b|..][|b| - |a|..] == d[|d| - |a|..];
  }

  /** Once the camera has accepted, enqueueing never drops anything. */
  lemma {:induction false} EnqueueAllConnected(c: Client, chunks: seq<Chunk>)
    requires c.isConnected
    ensures EnqueueAll(c, chunks).queue == c.queue + chunks
    decreases |chunks|
  {
    if chunks != [] {
      EnqueueAllConnected(Enqueue(c, chunks[0]), chunks[1..]);
      assert c.queue + [chunks[0]] + chunks[1..] == c.queue + chunks;
    }
  }

  /** Before the camera accepts, a queue within its bound keeps exactly the
      newest MAX_QUEUE_SIZE_UNCONNECTED chunks of everything enqueued. */
  lemma {:induction false} EnqueueAllKeepsNewest(c: Client, chunks: seq<Chunk>)
    requires !c.isConnected && |c.queue| <= MAX_QUEUE_SIZE_UNCONNECTED
    ensures EnqueueAll(c, chunks).queue == Newest(c.queue + chunks, MAX_QUEUE_SIZE_UNCONNECTED)
    decreases |chunks|
  {
    if chunks == [] {
      assert c.queue + chunks == c.queue;
    } else {
      var c1 := Enqueue(c, chunks[0]);
      EnqueueAllKeepsNewest(c1, chunks[1..]);
      var all := c.queue + chunks;
      AppendFirst(c.queue, chunks);
      if |c.queue| < MAX_QUEUE_SIZE_UNCONNECTED {
        assert c1.queue + chunks[1..] == all;
      } else {
        DropFirstAppend(c.queue + [chunks[0]], chunks[1..]);
        assert c1.queue + chunks[1..] == all[1..];
        NewestDropOldest(all, MAX_QUEUE_SIZE_UNCONNECTED);
      }
    }
  }

  lemma AppendFirst<T>(q: seq<T>, xs: seq<T>)
    requires xs != []
    ensures q + [xs[0]] + xs[1..] == q + xs
  {
  }

  lemma DropFirstAppend<T>(q: seq<T>, xs: seq<T>)
    requires q != []
    ensures q[1..] + xs == (q + xs)[1..]
  {
  }

  lemma NewestDropOldest<T>(s: seq<T>, n: nat)
    requires |s| > n
    ensures Newest(s[1..], n) == Newest(s, n)
  {
  }

  /** A client after a control transition (`connect` or `stop`), with the
      commands it attempted to write on its socket, in order. */
  datatype Transition = Transition(client: Client, sent: seq<string>)

  /** `stop`: once only, a best-effort CLOSE on the socket if there is one,
      then the socket is dropped and the client stops running.  The write's
      outcome is ignored, so only the attempt is recorded in `sent`. */
  function Stop(c: Client): (r: Transition)
    ensures !r.client.running
    ensures c.running ==> !r.client.hasSock && !r.client.isConnected
    ensures r.client.queue == c.queue && r.client.totalBytesSent == c.totalBytesSent
    ensures r.client.startTime == c.startTime && r.client.ip == c.ip
    ensures r.client.listening == c.listening
    ensures r.sent == (if c.running && c.hasSock then [Control.CloseCommand(c.ip)] else [])
    ensures !c.running ==> r.client == c
  {
    if !c.running then Transition(c, [])
    else
      var sent := if c.hasSock then [Control.CloseCommand(c.ip)] else [];
      Transition(c.(running := false, hasSock := false, isConnected := false), sent)
  }

  /** A second `stop` does nothing: no write and no change. */
  lemma StopIdempotent(c: Client)
    ensures Stop(Stop(c).client) == Transition(Stop(c).client, [])
  {
  }

  /** How `connect` went: the socket was created, connected, the OPEN write
      went through and the listener started; the socket was created but
      connecting raised; the OPEN write was attempted but it (or starting
      the listener) raised; or creating the socket itself raised. */
  datatype ConnectOutcome = Connected | Refused | OpenFailed | NoSocket

  /** `connect`: a socket is created; on success the OPEN command is written
      and the listener starts; on any failure `stop` runs, which still tries
      to write CLOSE when the socket had been created.  `sent` lists every
      write attempted, in order. */
  function Connect(c: Client, outcome: ConnectOutcome): (r: Transition)
    requires c.running
    ensures r.client.queue == c.queue && r.client.ip == c.ip
    ensures r.client.startTime == c.startTime && r.client.totalBytesSent == c.totalBytesSent
    ensures !outcome.Connected? ==> r.client.listening == c.listening
    ensures outcome.Connected? ==>
              r.client == c.(hasSock := true, listening := true)
              && r.sent == [Control.OpenCommand(c.ip)]
    ensures !outcome.Connected? ==>
              !r.client.running && !r.client.hasSock && !r.client.isConnected
    ensures outcome.Refused? ==> r.sent == [Control.CloseCommand(c.ip)]
    ensures outcome.OpenFailed? ==>
              r.sent == [Control.OpenCommand(c.ip), Control.CloseCommand(c.ip)]
    ensures outcome.NoSocket? ==> r.sent == (if c.hasSock then [Control.CloseCommand(c.ip)] else [])
  {
    match outcome
    case Connected => Transition(c.(hasSock := true, listening := true), [Control.OpenCommand(c.ip)])
    case Refused => Stop(c.(hasSock := true))
    case OpenFailed =>
      var s := Stop(c.(hasSock := true));
      Transition(s.client, [Control.OpenCommand(c.ip)] + s.sent)
    case NoSocket => Stop(c)
  }

  /** What one `recv` call of the listener returns. */
  datatype SocketEvent =
    | Data(text: string)   // a non-empty read, already decoded to text
    | Eof                  // an empty read
    | Failure              // `recv` raised

  /** One turn of the `_listen` loop.  The loop reads only while the client
      runs and has a socket; an EOF ends it without clearing `isConnected`,
      and only a raised error clears it. */
  function Listen(c: Client, ev: SocketEvent): (r: Client)
    ensures r.queue == c.queue && r.startTime == c.startTime
    ensures r.totalBytesSent == c.totalBytesSent && r.running == c.running && r.hasSock == c.hasSock
    ensures !(c.listening && c.running && c.hasSock) ==> r == c
    ensures c.listening && c.running && c.hasSock && ev.Data? ==>
              r.listening && (r.isConnected <==> c.isConnected || Control.IsHandshakeAccepted(ev.text))
    ensures c.listening && c.running && c.hasSock && ev.Eof? ==>
              !r.listening && r.isConnected == c.isConnected
    ensures c.listening && c.running && c.hasSock && ev.Failure? ==>
              !r.listening && !r.isConnected
  {
    if !(c.listening && c.running && c.hasSock) then c
    else match ev
      case Data(text) =>
        if Control.IsHandshakeAccepted(text) then c.(isConnected := true) else c
      case Eof => c.(listening := false)
      case Failure => c.(listening := false, isConnected := false)
  }

  /** A fresh client that connects and then reads a reply carrying the
      marker is streaming-ready; the same client never becomes ready from
      a reply without it. */
  lemma HandshakeReachesConnected(ip: string, reply: string)
    ensures var c := Listen(Connect(NewClient(ip), Connected).client, Data(reply));
            c.isConnected <==> Control.IsHandshakeAccepted(reply)
  {
  }
}

=== FILE: wrappers.dfy ===
/** Optional result of the frame decoders. */
module Wrappers {

  datatype Option<+T> = None | Some(value: T)
}
